=== FILE: README.md ===
# White Border — a Dafny model of the image geometry

The White Border tool takes a batch of uploaded photos. For each one it
optionally centre-crops the photo to the 8.5 x 11 letter ratio, then pastes it
onto a white canvas that is larger by a fractional margin on every side. It
packs the results as `bordered_<name>` entries of a zip archive. Portrait and
landscape photos get separate margin settings.

This project models that logic with exact arithmetic and proves its geometry:

- `rational.dfy` (`Rational`): non-negative rationals for the target ratio
  (17/22 for 8.5/11) and the padding fractions. `int(...)` of a non-negative
  product is modelled as a floor.
- `raster.dfy` (`Raster`): an image is a grid of RGB pixels with explicit width
  and height. It also defines the three image-library operations the tool uses:
  a blank canvas, a crop with exclusive right and bottom edges, and a paste over
  a rectangle.
- `border.dfy` (`Border`): `add_border`. The canvas is
  `floor(W(1+2h)) x floor(H(1+2v))` and the image sits at
  `(floor(Wh), floor(Hv))`. The two margins of an axis differ by at most one
  pixel, with the extra pixel trailing. Every pixel outside the image is white.
  Zero padding is the identity.
- `fit.dfy` (`Fit`): `fit_to_aspect_ratio`. The target is inverted exactly
  when the image and the target lie strictly on opposite sides of ratio 1. The
  crop box stays inside the image and is centred to within one pixel. It keeps
  one axis whole and cuts the other to the floor of the oriented target ratio. Float
  comparisons become cross-multiplications.
- `pipeline.dfy` (`Pipeline`): one pass of the processing loop and the whole
  batch. Orientation is read from the upload's size before fitting, so a
  fitted image keeps the orientation of its upload. The test is the strict
  `height > width` (Home.py:58), so a square upload counts as landscape. The
  padding of that orientation is applied, and the output name is `bordered_`
  followed by the upload's name.

Facts about the program that shape the model:

- `fit_to_aspect_ratio` only crops; it never resizes. `add_border` only pads by
  a percentage of the image's own size; there is no fixed target canvas size.
- Entries are named `bordered_<original name>` with the original extension
  kept, although their content is always PNG.
- `fit_to_aspect_ratio` never divides by the width, only by the height and by
  the (positive) target ratio. An image of width 0 goes through it, so the
  model requires only `height > 0`, and only when fitting is on.

## Model

| member | source | states |
|---|---|---|
| Rational.Invert | Home.py:19 | the inverted ratio times the original is exactly 1 |
| Rational.FloorMul | Home.py:23 | the result is the greatest whole number not above n * f |
| Rational.FloorDiv | Home.py:26 | the result is the greatest whole number not above n / t |
| Raster.Blank | Home.py:10 | the new canvas has the requested size and every pixel is the fill colour |
| Raster.Crop | Home.py:33 | the crop has the box's size, and pixel (x, y) is the source pixel at (left + x, top + y) |
| Raster.Paste | Home.py:11 | inside the pasted rectangle each pixel is the pasted image's, offset by the corner; outside it the canvas is unchanged |
| Border.PaddedSize | Home.py:8-9 | the canvas extent is the floor of n * (1 + 2 * pad) |
| Border.LeadMargin | Home.py:11 | the paste offset is the greatest whole number not above n * pad |
| Border.MarginsBalanced | Home.py:8-11 | the canvas extent is n + floor(2n * pad), so the trailing margin is floor(2n * pad) - floor(n * pad); leading margin <= trailing margin <= leading margin + 1, so the image fits and the canvas is at least as large as the image |
| Border.AddBorder | Home.py:6-12 | the canvas is floor(W(1+2h)) x floor(H(1+2v)) and at least W x H; the image lies inside it at (floor(Wh), floor(Hv)) with every pixel copied; every other pixel is white |
| Border.ZeroPaddingIdentity | Home.py:8-11 | with any horizontal and vertical paddings of value 0 the bordered image equals the input |
| Border.PaddedSizeAtMostTriple | Home.py:8-9 | for a padding of at most 1 the canvas extent is at most three times the image extent |
| Border.HundredByTwoHundredExample | Home.py:8-11 | a 100 x 200 image with 10% margins gets a 120 x 240 canvas with the image at (10, 20) |
| Fit.Oriented | Home.py:18-19 | the target is inverted iff W/H and t lie strictly on opposite sides of 1 (the signs of W - H and of t - 1 are non-zero and opposite); afterwards image and used ratio never do; the used ratio is t or 1/t |
| Fit.CropBox | Home.py:21-31 | 0 <= left <= right <= W and 0 <= top <= bottom <= H; margins centred to within one pixel with the extra pixel right or bottom; with o = Fit.Oriented(W, H, t): when W/H > o the height is kept and the width is floor(H o) < W, otherwise the width is kept and the height is floor(W / o) <= H |
| Fit.ModestLandscapeKeepsWidth | Home.py:18-31 | a 3600 x 3000 image (W/H = 1.2 > 17/22) gets the inverted target 22/17, is not too wide for it, keeps its width and is cut to height floor(3600 * 17 / 22) = 2781, giving the box (0, 109, 3600, 2890) |
| Fit.FitToAspectRatio | Home.py:14-33 | the result never enlarges, keeps one axis whole, and is the source window at the crop box, pixel for pixel |
| Fit.SquareCropsWidth | Home.py:18-26 | a square keeps the 17/22 target un-inverted; its height is kept and its width becomes floor(17n/22) < n |
| Fit.OneByOneCollapses | Home.py:21-23 | a 1 x 1 image is cropped to width 0 and height 1 |
| Fit.LetterFitNonEmpty | Home.py:18-26 | with the letter ratio, every non-empty image other than 1 x 1 keeps at least one pixel on each axis |
| Pipeline.OutputName | Home.py:76 | the entry name is the prefix bordered_ followed by the whole upload name |
| Pipeline.Prepared | Home.py:60-61 | the image to border is never larger than the upload; with fitting off it is the upload itself; with fitting on it has the size of the letter crop box and its pixel (x, y) is the upload pixel at (left + x, top + y) |
| Pipeline.PaddingFor | Home.py:63-66 | an upload with H > W before fitting gets the portrait padding; any other, squares included, gets the landscape padding |
| Pipeline.ProcessImage | Home.py:57-66 | the prepared image is framed with the padding of the upload's orientation before fitting (portrait for an upload taller than wide, landscape otherwise); the name is bordered_ + name |
| Pipeline.ProcessAll | Home.py:54-76 | one entry per upload, in order, each the per-image result under the name bordered_ + name; no uploads give no entries |
| Pipeline.SquareGetsLandscape | Home.py:58 | a square upload is framed with the landscape padding |
| Pipeline.OrientationPrecedesFit | Home.py:57-64 | a 1 x 2 upload fits to a 1 x 1 square but is still framed with the portrait padding, because orientation is read before fitting |
| Pipeline.FittedWindowFramed | Home.py:60-66 | with fitting on, each output pixel in the pasted rectangle is the upload pixel at the crop-box corner plus its offset from the leading margins, so the output shows the centred crop window unchanged |
| Pipeline.KeepOriginalWithoutPadding | Home.py:60-66 | with fitting off and zero padding for the upload's own orientation, whatever the other orientation's padding, the output image equals the upload |
| Pipeline.OutputSizeBounds | Home.py:42-66 | within the widget bounds 0 <= padding <= 1 (Home.py:42-47), whichever orientation's padding is chosen (Home.py:63-66), each output is at least the prepared image and at most three times it on each axis, by the canvas formula of Home.py:8-9 |

## Left out

- The Streamlit page is not modelled: the title, uploader, settings widgets, buttons, download button and success message (Home.py:35-51, 78-85). The widget range 0..1 appears only as `Pipeline.WithinWidgetBounds`, and the fit toggle and paddings are fields of `Settings`.
- Image decoding (Home.py:55) and PNG encoding (Home.py:68-70) are I/O in the image library and are not modelled. Errors they raise are not modelled either, including a decode failure that aborts the batch. Encoding a 0-pixel-wide image, as produced from a 1 x 1 upload, is not modelled.
- Zip archive assembly is not modelled, apart from the entry names (Home.py:72-76). Neither is the "only when something was processed" guard on the download.
- IEEE-754 rounding is not modelled. `8.5/11`, `width / height`, `1 / target_ratio` and `width * (1 + 2 * h)` are exact rationals here, so a boundary case where float rounding flips a comparison or a floor is not represented.
- Pixels are RGB triples and the fill is (255, 255, 255). Colour modes and the library's mode conversion are not modelled.
- Processable: with fitting on, an upload of height 0 is excluded, although `width / height` at Home.py:16 would raise a division-by-zero error for it. The raised error is not modelled. A decoded PNG or JPEG upload always has height of at least 1, so the case does not arise from a real upload.
- Raster.Crop: requires an in-bounds box. The library pads out-of-bounds crops, but `Fit.CropBox` proves the tool never asks for one.
- Raster.Paste: requires the rectangle to fit the canvas. The library clips overhanging pastes, but `Border.MarginsBalanced` proves the tool's paste always fits.

=== FILE: border.dfy ===
/**
 The percentage border of `add_border`: a white canvas enlarged on each
 axis by a fractional margin on both sides, with the original pasted at the
 floor of the leading margin.
 */
module Border {
  import opened Rational
  import opened Raster

  /** int(n * (1 + 2 * pad)): the canvas extent along an axis of n pixels. */
  function PaddedSize(n: nat, pad: Fraction): (r: nat)
    ensures r * pad.den <= n * (pad.den + 2 * pad.num) < (r + 1) * pad.den
  {
    n * (pad.den + 2 * pad.num) / pad.den
  }

  /** int(n * pad): the margin before the image (left or top). */
  function LeadMargin(n: nat, pad: Fraction): (r: nat)
    ensures r * pad.den <= n * pad.num < (r + 1) * pad.den
  {
    FloorMul(n, pad)
  }

  /** What the canvas leaves after the image (right or bottom). */
  function TrailMargin(n: nat, pad: Fraction): int {
    PaddedSize(n, pad) - n - LeadMargin(n, pad)
  }

  /** The two margins of an axis differ by at most one pixel, the extra one
      trailing; so the image fits and the canvas is never smaller than it. */
  lemma MarginsBalanced(n: nat, pad: Fraction)
    ensures LeadMargin(n, pad) <= TrailMargin(n, pad) <= LeadMargin(n, pad) + 1
    ensures n <= n + LeadMargin(n, pad) <= PaddedSize(n, pad)
    ensures PaddedSize(n, pad) == n + (2 * (n * pad.num)) / pad.den
    ensures TrailMargin(n, pad) == (2 * (n * pad.num)) / pad.den - (n * pad.num) / pad.den
  {
    var a, d := n * pad.num, pad.den;
    assert n * (d + 2 * pad.num) == n * d + 2 * a;
    AddWhole(n, 2 * a, d);
    DoubleFloor(a, d);
    var lead, twice := a / d, (2 * a) / d;
    assert LeadMargin(n, pad) == lead;
    assert PaddedSize(n, pad) == n + twice;
    assert TrailMargin(n, pad) == twice - lead;
  }

  /** Within the widget bounds (pad <= 1) the canvas is at most three times
      the image along the axis. */
  lemma PaddedSizeAtMostTriple(n: nat, pad: Fraction)
    requires pad.num <= pad.den
    ensures PaddedSize(n, pad) <= 3 * n
  {
    assert PaddedSize(n, pad) * pad.den <= n * (pad.den + 2 * pad.num) <= (3 * n) * pad.den;
    CancelLeq(PaddedSize(n, pad), 3 * n, pad.den);
  }

  /** `out` is `inner` framed by margins of h (horizontal) and v (vertical):
      its size is the padded size, `inner` sits at the leading margins, and
      every other pixel is white. */
  ghost predicate Framed(out: Image, inner: Image, h: Fraction, v: Fraction)
    requires inner.Valid()
  {
    var x0, y0 := LeadMargin(inner.width, h), LeadMargin(inner.height, v);
    && out.Valid()
    && out.width == PaddedSize(inner.width, h)
    && out.height == PaddedSize(inner.height, v)
    && (forall x, y :: out.Contains(x, y) && inner.Contains(x - x0, y - y0) ==>
          out.At(x, y) == inner.At(x - x0, y - y0))
    && (forall x, y :: out.Contains(x, y) && !inner.Contains(x - x0, y - y0) ==>
          out.At(x, y) == White)
  }

  /** add_border(image, h_padding, v_padding) */
  function AddBorder(img: Image, h: Fraction, v: Fraction): (r: Image)
    requires img.Valid()
    ensures Framed(r, img, h, v)
    ensures r.width >= img.width && r.height >= img.height
    ensures LeadMargin(img.width, h) + img.width <= r.width
    ensures LeadMargin(img.height, v) + img.height <= r.height
  {
    MarginsBalanced(img.width, h);
    MarginsBalanced(img.height, v);
    var canvas := Blank(PaddedSize(img.width, h), PaddedSize(img.height, v), White);
    Paste(canvas, img, LeadMargin(img.width, h), LeadMargin(img.height, v))
  }

  /** Two valid images with the same size and the same pixels are equal. */
  lemma SamePixels(a: Image, b: Image)
    requires a.Valid() && b.Valid() && a.width == b.width && a.height == b.height
    requires forall x, y :: a.Contains(x, y) ==> a.At(x, y) == b.At(x, y)
    ensures a == b
  {
    forall y | 0 <= y < a.height
      ensures a.rows[y] == b.rows[y]
    {
      forall x | 0 <= x < a.width
        ensures a.rows[y][x] == b.rows[y][x]
      {
        assert a.At(x, y) == b.At(x, y);
      }
    }
  }

  /** With zero padding the border is the identity: same size, pasted at
      (0, 0), every pixel unchanged. */
  lemma ZeroPaddingIdentity(img: Image, h: Fraction, v: Fraction)
    requires img.Valid() && h.num == 0 && v.num == 0
    ensures AddBorder(img, h, v) == img
  {
    var r := AddBorder(img, h, v);
    assert LeadMargin(img.width, h) == 0 && LeadMargin(img.height, v) == 0;
    assert PaddedSize(img.width, h) == img.width;
    assert PaddedSize(img.height, v) == img.height;
    forall x, y | r.Contains(x, y)
      ensures r.At(x, y) == img.At(x, y)
    {
      assert img.Contains(x - 0, y - 0);
    }
    SamePixels(r, img);
  }

  /** A 100 x 200 image with 10% margins gets a 120 x 240 canvas with the
      image at (10, 20). */
  lemma HundredByTwoHundredExample(img: Image)
    requires img.Valid() && img.width == 100 && img.height == 200
    ensures var tenth := Frac(1, 10);
      && AddBorder(img, tenth, tenth).width == 120
      && AddBorder(img, tenth, tenth).height == 240
      && LeadMargin(100, tenth) == 10 && LeadMargin(200, tenth) == 20
  {
  }
}

=== FILE: fit.dfy ===
/**
 `fit_to_aspect_ratio`: normalise the target ratio to the image's
 orientation, then centre-crop the axis that is too long for it. Ratios are
 exact rationals, so `current_ratio > target_ratio` is the cross-multiplied
 `width * den > height * num`.
 */
module Fit {
  import opened Rational
  import opened Raster

  /** The sign of x: -1, 0 or 1. */
  function Sign(x: int): int {
    if x < 0 then -1 else if x > 0 then 1 else 0
  }

  /** The image ratio W / H and the ratio t lie strictly on opposite sides of 1. */
  predicate StrictlyOpposite(width: nat, height: nat, t: Ratio) {
    Sign(width - height) != 0 && Sign(width - height) == -Sign(t.num - t.den)
  }

  /** The target as used for a width x height image. It is inverted exactly
      when image and target lie strictly on opposite sides of ratio 1, and
      afterwards they never do. */
  function Oriented(width: nat, height: nat, t: Ratio): (o: Ratio)
    ensures o != t <==> StrictlyOpposite(width, height, t)
    ensures !StrictlyOpposite(width, height, o)
    ensures o == t || o == Invert(t)
  {
    if (width > height && BelowOne(t)) || (width < height && AboveOne(t)) then Invert(t) else t
  }

  /** The image is wider than the oriented target: W / H > t. */
  predicate TooWide(width: nat, height: nat, t: Ratio) {
    var o := Oriented(width, height, t);
    width * o.den > height * o.num
  }

  /** The crop box of fit_to_aspect_ratio for a width x height image. */
  function CropBox(width: nat, height: nat, t: Ratio): (b: Box)
    requires height > 0
    ensures InBounds(b, width, height)
    ensures b.left <= width - b.right <= b.left + 1
    ensures b.top <= height - b.bottom <= b.top + 1
    ensures var o, w, h := Oriented(width, height, t), b.right - b.left, b.bottom - b.top;
      if TooWide(width, height, t) then
        h == height && w < width && w * o.den <= height * o.num < (w + 1) * o.den
      else
        w == width && h <= height && h * o.num <= width * o.den < (h + 1) * o.num
  {
    var o := Oriented(width, height, t);
    var newWidth, newHeight :=
      if TooWide(width, height, t) then FloorMul(height, o) else width,
      if TooWide(width, height, t) then height else FloorDiv(width, o);
    assert newWidth <= width && newHeight <= height by {
      if TooWide(width, height, t) {
        CancelLess(newWidth, width, o.den);
      } else {
        CancelLeq(newHeight, height, o.num);
      }
    }
    // Python's `//` floors; both differences are non-negative here, so
    // Dafny's division agrees with it.
    var left, top := (width - newWidth) / 2, (height - newHeight) / 2;
    Box(left, top, left + newWidth, top + newHeight)
  }

  /** fit_to_aspect_ratio(image, target_ratio) */
  function FitToAspectRatio(img: Image, t: Ratio): (r: Image)
    requires img.Valid() && img.height > 0
    ensures r.Valid()
    ensures r.width <= img.width && r.height <= img.height
    ensures r.width == img.width || r.height == img.height
    ensures var b := CropBox(img.width, img.height, t);
      && r.width == b.right - b.left && r.height == b.bottom - b.top
      && forall x, y :: r.Contains(x, y) ==> r.At(x, y) == img.At(b.left + x, b.top + y)
  {
    Crop(img, CropBox(img.width, img.height, t))
  }

  /** A square image keeps the letter target un-inverted, so its width is
      cropped to floor(n * 17 / 22) and its height kept. */
  lemma SquareCropsWidth(n: nat)
    requires n > 0
    ensures Oriented(n, n, Letter) == Letter
    ensures var b := CropBox(n, n, Letter);
      b.bottom - b.top == n && b.right - b.left == n * 17 / 22 < n
  {
  }

  /** A landscape image flatter than letter but not wider than its inverse:
      the target is inverted to 22/17, the image is not too wide for it, so
      the width is kept and the height cut to floor(3600 * 17 / 22). */
  lemma ModestLandscapeKeepsWidth()
    ensures Oriented(3600, 3000, Letter) == Frac(22, 17)
    ensures !TooWide(3600, 3000, Letter)
    ensures CropBox(3600, 3000, Letter) == Box(0, 109, 3600, 2890)
  {
  }

  /** A 1 x 1 image is cropped to width 0. */
  lemma OneByOneCollapses()
    ensures var b := CropBox(1, 1, Letter); b.right - b.left == 0 && b.bottom - b.top == 1
  {
  }

  /** With the letter target, every other non-empty image keeps at least one
      pixel on each axis. */
  lemma LetterFitNonEmpty(width: nat, height: nat)
    requires width > 0 && height > 0 && !(width == 1 && height == 1)
    ensures var b := CropBox(width, height, Letter); b.right - b.left > 0 && b.bottom - b.top > 0
  {
    var o := Oriented(width, height, Letter);
    if width > height {
      assert o == Frac(22, 17) && width >= 2;
    } else {
      assert o == Letter;
      assert width == height ==> height >= 2;
    }
  }
}

=== FILE: pipeline.dfy ===
/**
 The per-image step of the "Process Images" action: classify the uploaded
 image as portrait or landscape from its size before any fitting, fit it to
 the letter ratio when the toggle is on, add the border with the padding of
 its orientation, and file the result as `bordered_<name>`.
 */
module Pipeline {
  import opened Rational
  import opened Raster
  import Border
  import Fit

  /** Horizontal and vertical padding fractions of one orientation. */
  datatype Padding = Padding(h: Fraction, v: Fraction)

  /** The settings panel: padding per orientation and the fit toggle. */
  datatype Settings = Settings(portrait: Padding, landscape: Padding, fitToLetter: bool)

  /** The number inputs accept fractions between 0 and 1. */
  predicate WithinWidgetBounds(s: Settings) {
    && s.portrait.h.num <= s.portrait.h.den && s.portrait.v.num <= s.portrait.v.den
    && s.landscape.h.num <= s.landscape.h.den && s.landscape.v.num <= s.landscape.v.den
  }

  /** A decoded upload and the file name it came with. */
  datatype Upload = Upload(name: string, image: Image)

  /** One archive entry: its file name and the bordered image. */
  datatype Entry = Entry(name: string, image: Image)

  /** The upload can go through the step: fitting divides by the height. */
  predicate Processable(s: Settings, u: Upload) {
    u.image.Valid() && (s.fitToLetter ==> u.image.height > 0)
  }

  /** Orientation is portrait iff strictly taller than wide; squares are landscape. */
  predicate IsPortrait(img: Image) {
    img.height > img.width
  }

  /** The archive name of an upload's output. */
  function OutputName(name: string): (r: string)
    ensures |r| == |name| + 9
    ensures r[..9] == "bordered_" && r[9..] == name
  {
    "bordered_" + name
  }

  /** The image the border is added to: the fitted crop, or the upload itself. */
  function Prepared(s: Settings, u: Upload): (r: Image)
    requires Processable(s, u)
    ensures r.Valid()
    ensures r.width <= u.image.width && r.height <= u.image.height
    ensures !s.fitToLetter ==> r == u.image
    ensures s.fitToLetter ==>
      var b := Fit.CropBox(u.image.width, u.image.height, Letter);
      && r.width == b.right - b.left && r.height == b.bottom - b.top
      && forall x, y :: r.Contains(x, y) ==>
           u.image.Contains(b.left + x, b.top + y) && r.At(x, y) == u.image.At(b.left + x, b.top + y)
  {
    if s.fitToLetter then Fit.FitToAspectRatio(u.image, Letter) else u.image
  }

  /** The padding of the upload's orientation, decided before fitting. */
  function PaddingFor(s: Settings, u: Upload): (p: Padding)
    ensures u.image.height > u.image.width ==> p == s.portrait
    ensures u.image.height <= u.image.width ==> p == s.landscape
  {
    if IsPortrait(u.image) then s.portrait else s.landscape
  }

  /** One iteration of the processing loop. */
  function ProcessImage(s: Settings, u: Upload): (e: Entry)
    requires Processable(s, u)
    ensures e.name == OutputName(u.name)
    ensures Border.Framed(e.image, Prepared(s, u), PaddingFor(s, u).h, PaddingFor(s, u).v)
  {
    var pad := PaddingFor(s, u);
    Entry(OutputName(u.name), Border.AddBorder(Prepared(s, u), pad.h, pad.v))
  }

  /** The whole batch, in upload order. */
  function ProcessAll(s: Settings, uploads: seq<Upload>): (entries: seq<Entry>)
    requires forall i :: 0 <= i < |uploads| ==> Processable(s, uploads[i])
    ensures |entries| == |uploads|
    ensures forall i :: 0 <= i < |uploads| ==>
      entries[i].name == OutputName(uploads[i].name) && entries[i] == ProcessImage(s, uploads[i])
  {
    if |uploads| == 0 then []
    else [ProcessImage(s, uploads[0])] + ProcessAll(s, uploads[1..])
  }

  /** A square upload gets the landscape padding. */
  lemma SquareGetsLandscape(s: Settings, u: Upload)
    requires Processable(s, u) && u.image.width == u.image.height
    ensures Border.Framed(ProcessImage(s, u).image, Prepared(s, u), s.landscape.h, s.landscape.v)
  {
  }

  /** Orientation is read before fitting: a 1 x 2 upload fitted to the letter
      ratio becomes a 1 x 1 square, yet is framed with the portrait padding. */
  lemma OrientationPrecedesFit(s: Settings, u: Upload)
    requires s.fitToLetter && u.image.Valid() && u.image.width == 1 && u.image.height == 2
    ensures Prepared(s, u).width == 1 && Prepared(s, u).height == 1
    ensures ProcessImage(s, u).image.width == Border.PaddedSize(1, s.portrait.h)
    ensures ProcessImage(s, u).image.height == Border.PaddedSize(1, s.portrait.v)
  {
    var b := Fit.CropBox(1, 2, Letter);
    assert Fit.Oriented(1, 2, Letter) == Letter;
    assert !Fit.TooWide(1, 2, Letter);
    assert b.right - b.left == 1 && b.bottom - b.top == 1;
  }

  /** `out` shows the box `b` of `src` with the box's corner at (x0, y0). */
  ghost predicate ShowsWindow(out: Image, src: Image, b: Box, x0: int, y0: int) {
    && out.Valid() && src.Valid()
    && forall x, y :: out.Contains(x, y) && 0 <= x - x0 < b.right - b.left && 0 <= y - y0 < b.bottom - b.top ==>
         src.Contains(b.left + x - x0, b.top + y - y0) && out.At(x, y) == src.At(b.left + x - x0, b.top + y - y0)
  }

  /** With fitting on, the output shows the centred crop window of the
      upload, pixel for pixel, at the leading margins of the chosen padding. */
  lemma FittedWindowFramed(s: Settings, u: Upload)
    requires s.fitToLetter && u.image.Valid() && u.image.height > 0
    ensures var b, pad := Fit.CropBox(u.image.width, u.image.height, Letter), PaddingFor(s, u);
      ShowsWindow(ProcessImage(s, u).image, u.image, b,
        Border.LeadMargin(b.right - b.left, pad.h), Border.LeadMargin(b.bottom - b.top, pad.v))
  {
    var b, pad := Fit.CropBox(u.image.width, u.image.height, Letter), PaddingFor(s, u);
    var x0, y0 := Border.LeadMargin(b.right - b.left, pad.h), Border.LeadMargin(b.bottom - b.top, pad.v);
    WindowThroughFrame(u.image, Prepared(s, u), ProcessImage(s, u).image, b, pad.h, pad.v, x0, y0);
  }

  /** A window of `src` at box `b`, framed with paddings h and v, shows the
      box of `src` at the window's leading margins (x0, y0). */
  lemma WindowThroughFrame(src: Image, window: Image, out: Image, b: Box, h: Fraction, v: Fraction, x0: int, y0: int)
    requires src.Valid() && window.Valid() && Border.Framed(out, window, h, v)
    requires window.width == b.right - b.left && window.height == b.bottom - b.top
    requires forall x, y :: window.Contains(x, y) ==>
               src.Contains(b.left + x, b.top + y) && window.At(x, y) == src.At(b.left + x, b.top + y)
    requires x0 == Border.LeadMargin(window.width, h) && y0 == Border.LeadMargin(window.height, v)
    ensures ShowsWindow(out, src, b, x0, y0)
  {
  }

  /** Keeping the original aspect with zero padding for the upload's
      orientation returns the upload unchanged. */
  lemma KeepOriginalWithoutPadding(s: Settings, u: Upload)
    requires u.image.Valid() && !s.fitToLetter
    requires PaddingFor(s, u).h.num == 0 && PaddingFor(s, u).v.num == 0
    ensures ProcessImage(s, u).image == u.image
  {
    var pad := PaddingFor(s, u);
    Border.ZeroPaddingIdentity(u.image, pad.h, pad.v);
  }

  /** Within the widget bounds each output is at most three times the
      prepared image on each axis, and never smaller than it. */
  lemma OutputSizeBounds(s: Settings, u: Upload)
    requires Processable(s, u) && WithinWidgetBounds(s)
    ensures var p, e := Prepared(s, u), ProcessImage(s, u).image;
      p.width <= e.width <= 3 * p.width && p.height <= e.height <= 3 * p.height
  {
    var p, pad := Prepared(s, u), PaddingFor(s, u);
    Border.PaddedSizeAtMostTriple(p.width, pad.h);
    Border.PaddedSizeAtMostTriple(p.height, pad.v);
    Border.MarginsBalanced(p.width, pad.h);
    Border.MarginsBalanced(p.height, pad.v);
  }
}

=== FILE: raster.dfy ===
/**
 The pixel grid the border tool works on, and the three image-library
 operations it uses: a blank canvas of one colour (`Image.new`), a crop to a
 box with exclusive right and bottom edges (`image.crop`), and pasting one
 image over a rectangle of another (`result.paste`).
 */
module Raster {

  /** An RGB pixel; the canvas fill (255, 255, 255) is `White`. */
  datatype Pixel = Rgb(red: nat, green: nat, blue: nat)

  const White: Pixel := Rgb(255, 255, 255)

  /** A width x height image stored row by row: `rows[y][x]` is the pixel in
      column x of row y. Either dimension may be zero. */
  datatype Image = Image(width: nat, height: nat, rows: seq<seq<Pixel>>) {

    /** The rows agree with the recorded dimensions. */
    predicate Valid() {
      |rows| == height && forall y :: 0 <= y < |rows| ==> |rows[y]| == width
    }

    predicate Contains(x: int, y: int) {
      0 <= x < width && 0 <= y < height
    }

    function At(x: int, y: int): Pixel
      requires Valid() && Contains(x, y)
    {
      rows[y][x]
    }
  }

  /** A crop box (left, top, right, bottom); right and bottom are exclusive. */
  datatype Box = Box(left: int, top: int, right: int, bottom: int)

  /** The box lies inside a width x height image and is not inverted. */
  predicate InBounds(b: Box, width: nat, height: nat) {
    0 <= b.left <= b.right <= width && 0 <= b.top <= b.bottom <= height
  }

  /** A width x height image filled with one colour. */
  function Blank(width: nat, height: nat, fill: Pixel): (r: Image)
    ensures r.Valid() && r.width == width && r.height == height
    ensures forall x, y :: r.Contains(x, y) ==> r.At(x, y) == fill
  {
    Image(width, height, seq(height, _ => seq(width, _ => fill)))
  }

  /** The part of `img` inside box `b`, re-indexed from (0, 0). */
  function Crop(img: Image, b: Box): (r: Image)
    requires img.Valid() && InBounds(b, img.width, img.height)
    ensures r.Valid()
    ensures r.width == b.right - b.left && r.height == b.bottom - b.top
    ensures forall x, y :: r.Contains(x, y) ==> r.At(x, y) == img.At(b.left + x, b.top + y)
  {
    var w, h := b.right - b.left, b.bottom - b.top;
    Image(w, h, seq(h, y requires 0 <= y < h => img.rows[b.top + y][b.left..b.right]))
  }

  /** `canvas` with `img` written over the rectangle whose top-left corner is
      (x0, y0); the rectangle must fit inside the canvas. */
  function Paste(canvas: Image, img: Image, x0: nat, y0: nat): (r: Image)
    requires canvas.Valid() && img.Valid()
    requires x0 + img.width <= canvas.width && y0 + img.height <= canvas.height
    ensures r.Valid() && r.width == canvas.width && r.height == canvas.height
    ensures forall x, y :: r.Contains(x, y) && img.Contains(x - x0, y - y0) ==>
              r.At(x, y) == img.At(x - x0, y - y0)
    ensures forall x, y :: r.Contains(x, y) && !img.Contains(x - x0, y - y0) ==>
              r.At(x, y) == canvas.At(x, y)
  {
    Image(canvas.width, canvas.height,
      seq(canvas.height, y requires 0 <= y < canvas.height =>
        seq(canvas.width, x requires 0 <= x < canvas.width =>
          if img.Contains(x - x0, y - y0) then img.rows[y - y0][x - x0] else canvas.rows[y][x])))
  }
}

=== FILE: rational.dfy ===
/**
 Exact non-negative rationals standing in for the floating-point ratios and
 padding fractions of the border tool, and the floor of a rational multiple
 of a pixel count (Python's `int(...)` applied to a non-negative product).
 */
module Rational {

  /** The numerator and denominator of a non-negative rational num/den. The
      model only uses it through the two subset types below, which rule out
      a zero denominator. */
  datatype Frac = Frac(num: nat, den: nat)

  /** A padding fraction: any non-negative rational (den > 0). */
  type Fraction = f: Frac | f.den > 0 witness Frac(0, 1)

  /** An aspect ratio width:height: a strictly positive rational (num > 0 and den > 0). */
  type Ratio = f: Frac | f.num > 0 && f.den > 0 witness Frac(1, 1)

  const Zero: Fraction := Frac(0, 1)

  /** The letter-paper ratio 8.5 / 11, written exactly as 17 / 22. */
  const Letter: Ratio := Frac(17, 22)

  /** 1 / t */
  function Invert(t: Ratio): (r: Ratio)
    ensures r.num * t.num == r.den * t.den
  {
    Frac(t.den, t.num)
  }

  /** t < 1 */
  predicate BelowOne(t: Ratio) {
    t.num < t.den
  }

  /** t > 1 */
  predicate AboveOne(t: Ratio) {
    t.num > t.den
  }

  /** floor(n * f) for a pixel count n. */
  function FloorMul(n: nat, f: Fraction): (r: nat)
    ensures r * f.den <= n * f.num < (r + 1) * f.den
  {
    n * f.num / f.den
  }

  /** floor(n / t) for a pixel count n. */
  function FloorDiv(n: nat, t: Ratio): (r: nat)
    ensures r * t.num <= n * t.den < (r + 1) * t.num
  {
    n * t.den / t.num
  }

  /** floor(2x) is 2 floor(x) or 2 floor(x) + 1, for x = a / d. */
  lemma DoubleFloor(a: nat, d: nat)
    requires d > 0
    ensures 2 * (a / d) <= (2 * a) / d <= 2 * (a / d) + 1
  {
    var q, r := a / d, a % d;
    assert a == q * d + r && 0 <= r < d;
    assert 2 * a == (2 * q) * d + 2 * r;
    if 2 * r < d {
      DivUnique(2 * a, d, 2 * q, 2 * r);
    } else {
      assert 2 * a == (2 * q + 1) * d + (2 * r - d);
      DivUnique(2 * a, d, 2 * q + 1, 2 * r - d);
    }
  }

  /** Euclidean division has a unique quotient. */
  lemma DivUnique(a: nat, d: nat, q: nat, r: nat)
    requires d > 0 && a == q * d + r && r < d
    ensures a / d == q
  {
    var q', r' := a / d, a % d;
    assert a == q' * d + r' && r' < d;
    if q' < q {
      MulGap(q', q, d);
    } else if q' > q {
      MulGap(q, q', d);
    }
  }

  /** Whole multiples of d that differ are at least d apart. */
  lemma MulGap(x: nat, y: nat, d: nat)
    requires x < y
    ensures x * d + d <= y * d
  {
    var k := y - x;
    assert y * d == x * d + k * d;
    assert k * d >= d by {
      assert k >= 1;
    }
  }

  /** Cancelling a positive factor from a strict inequality. */
  lemma CancelLess(a: nat, b: nat, d: nat)
    requires a * d < b * d
    ensures a < b
  {
    if b < a {
      MulGap(b, a, d);
    }
  }

  /** Cancelling a positive factor from a non-strict inequality. */
  lemma CancelLeq(a: nat, b: nat, d: nat)
    requires d > 0 && a * d <= b * d
    ensures a <= b
  {
    if b < a {
      MulGap(b, a, d);
    }
  }

  /** floor(n + x) = n + floor(x) when n is a whole number; written for x = a / d. */
  lemma AddWhole(n: nat, a: nat, d: nat)
    requires d > 0
    ensures (n * d + a) / d == n + a / d
  {
    DivUnique(n * d + a, d, n + a / d, a % d);
  }
}
